=== FILE: README.md ===
# Gym membership: status, member accounts and analytics, in Dafny

This project models the parts of a gym-membership web application that hold
real logic. The rest of the application is a REST API over a document store
plus a browser dashboard for members. The modelled parts are:

- **Membership status** (`MembershipStatus`): the dashboard classifies a
  membership from its validity date and today's date. It is Active, Expiring
  Soon or Expired, and it carries the days remaining. Instants are integer
  milliseconds on the local time line, and days are whole numbers of days.
- **Dashboard client state** (`ClientState`):
  - the light/dark theme as a two-state machine over the page and local storage;
  - the password-change form's validation order and its effect on the
    first-login session flag;
  - the announcement banner and its icon fallback.
- **Member account operations** (`Members`): login, password change and
  profile update, as pure transitions over a sequence of `Customer` records.
  Password checking and hashing are the parameters `matches(plain, stored)`
  and `hash(plain)`. A session token is represented by the record key it is
  issued for.
- **History paging** (`Pagination`): the `skip` and `totalPages` arithmetic of
  the attendance and payment histories, with their defaults.
- **Analytics** (`Analytics`, `Growth`), over an in-memory sequence of customers:
  - the dashboard's active/expiring/expired counts;
  - the plan-popularity chart;
  - the age-demographics buckets and labels;
  - the six-month growth window.

Shared pieces: `Common` holds the optional value, the HTTP-style result, JavaScript truthiness,
ceiling division and counting. `Calendar` holds day numbers, months and `setMonth`.

Three behaviours of the code are easy to misread:

- A member with no password gets its own 401 message, "Member account not
  activated. Contact admin.". It does not get the generic "Invalid member ID or
  password" (src/controllers/memberController.js:25-27).
- `changePassword` checks the input (missing fields, then length below 4)
  before it looks up the member and verifies the current password
  (src/controllers/memberController.js:99-117).
- Only the later `setTheme` (public/member-app/app.js:218-239) is modelled. In a
  class body it replaces the earlier definition at lines 35-47.

## Model

| member | source | states |
|---|---|---|
| `MembershipStatus.CalculateMembershipStatus` | public/member-app/app.js:128-144 | Expired exactly when the validity day is before today, and then 0 days remain. Expiring Soon exactly when the validity day is today through today+7 (so expiring today is not expired). Active exactly when it is later than today+7. Otherwise the days remaining are the day difference. The days remaining are never negative. |
| `MembershipStatus.DiffDays` | public/member-app/app.js:129-135 | The ceiling of the midnight-to-midnight difference in days is exactly the number of calendar days between the two dates. |
| `MembershipStatus.SameDaySameStatus` | public/member-app/app.js:129-135 | The result depends only on the two calendar days. Calls on the same day with validity on the same day give identical output, whatever the time of day. |
| `MembershipStatus.StatusMonotoneInValidity` | public/member-app/app.js:137-143 | A later validity never moves the status from Active towards Expired, and never lowers the days remaining. |
| `MembershipStatus.DayOfMonotone` | public/member-app/app.js:129-132 | Later instants never fall on earlier days. |
| `MembershipStatus.DayOfShift` | public/member-app/app.js:134-135 | Adding k whole days to an instant moves its calendar day by exactly k. |
| `MembershipStatus.BoundaryScenarios` | public/member-app/app.js:137-142 | Validity today gives Expiring Soon with 0 days. Today+7 gives Expiring Soon with 7 days. Today+8 gives Active with 8 days. Yesterday gives Expired with 0 days. |
| `Calendar.Midnight` | public/member-app/app.js:129-132 | `setHours(0,0,0,0)` gives the start of the instant's own day: at or before the instant, less than a day before it, on the same day. |
| `Common.CeilDiv` | src/controllers/memberController.js:151 | `Math.ceil(a / b)` is the least r with a ≤ r·b. |
| `ClientState.SetTheme` | public/member-app/app.js:218-239 | Dark mode holds exactly when the theme is "dark". The value given is stored as is. Every theme element on the page shows the icon and label of the applied mode. Missing elements stay missing. |
| `ClientState.ToggleTheme` | public/member-app/app.js:29-33 | The body's mode flips, and the name of the new mode is what gets stored. Every theme element on the page shows the new mode, and no element appears or disappears. |
| `ClientState.InitTheme` | public/member-app/app.js:24-27 | With nothing stored (or ""), the page starts light and "light" is stored. Otherwise the stored value is re-applied, and the page is dark exactly when it is "dark". Either way every theme element on the page shows the icon and label of the applied mode, and missing elements stay missing. |
| `ClientState.ToggleTwiceRestores` | public/member-app/app.js:29-33 | On a page in a state the theme code produces, toggling twice gives back exactly the same page. |
| `ClientState.ToggleTwiceRestoresMode` | public/member-app/app.js:29-33 | From any page, toggling twice restores the body's mode and leaves the page settled. |
| `ClientState.ThemeSurvivesReload` | public/member-app/app.js:24-27 | A non-empty theme applied by `setTheme` is applied again by `initTheme` on the next load. |
| `ClientState.InitThemeIdempotent` | public/member-app/app.js:24-27 | Initialising the theme twice is the same as initialising it once. |
| `ClientState.HandlePasswordChange` | public/member-app/app.js:241-270 | A confirmation mismatch is reported first. A new password shorter than 4 is reported second. Neither sends a request. Otherwise the request carries (current, new). Only a successful reply clears the `isFirstLogin` flag and closes the modal, and after it the error line stays hidden. A failed reply shows its message. |
| `ClientState.LocalRejectionIgnoresServer` | public/member-app/app.js:249-259 | When the form rejects its input locally, the server's reply has no effect on anything. |
| `ClientState.IconFor` | public/member-app/app.js:101-111 | A known type gets its table icon. The info icon is shown exactly when the type is none of important/offer/event/maintenance. |
| `ClientState.LoadAnnouncements` | public/member-app/app.js:94-126 | The banner is shown exactly when a non-empty list arrives. It then holds one entry per announcement, in order, each carrying that announcement's type, title, message and icon. Otherwise it is hidden and its entries are untouched. |
| `ClientState.RenderRoundTrip` | public/member-app/app.js:109-117 | An announcement can be read back unchanged from its rendered entry. |
| `Members.Sanitize` | src/controllers/memberController.js:42-43 | The customer sent to the client has no password, and differs from the stored one in nothing else. |
| `Members.FindByMemberId` | src/controllers/memberController.js:19 | Finds the first customer with the member id, or none when no customer has it. |
| `Members.FindByKey` | src/controllers/memberController.js:108 | Finds the first customer with the key, or none when no customer has it. |
| `Members.MemberLogin` | src/controllers/memberController.js:10-50 | Missing id or password gives 400 before any lookup. An unknown id gives the generic 401. A member without a password gives the distinct "not activated" 401. Login succeeds exactly when the stored password matches. On success only `lastLogin` changes. The reply has no password, reports the stored `isFirstLogin`, and binds the token to the member. |
| `Members.UnknownIdLikeWrongPassword` | src/controllers/memberController.js:20-33 | An unknown member id and a wrong password give the very same error. |
| `Members.ValidatePasswordInput` | src/controllers/memberController.js:99-105 | The input passes exactly when both passwords are non-empty and the new one has at least 4 characters. A missing field gives 400 "Please provide current and new password", before the length is checked. With both fields present, a new password shorter than 4 gives 400 "Password must be at least 4 characters". |
| `Members.ChangePassword` | src/controllers/memberController.js:96-128 | Input errors come before the lookup and the password check, and a short new password gives "Password must be at least 4 characters". With valid input, an unknown member gives exactly the 404, and a wrong current password gives exactly the 401 "Current password is incorrect". The change succeeds exactly when the input is valid, the member exists and the current password matches. Success stores the hashed new password, clears `isFirstLogin`, changes nothing else, and issues the token for the member. |
| `Members.Pick` | src/controllers/memberController.js:81-84 | A field takes a truthy input, and otherwise keeps its old value. No field can be cleared this way. |
| `Members.UpdateMemberProfile` | src/controllers/memberController.js:72-89 | An unknown member gives 404. Otherwise only name, phone, email and photo may change, each exactly when its input is truthy. Other fields and other customers are untouched. The reply has no password. |
| `Members.UpdateProfileIdempotent` | src/controllers/memberController.js:81-86 | Repeating a profile update gives the same result as doing it once. |
| `Members.PhoneOnlyUpdate` | src/controllers/memberController.js:81-84 | An update with only a phone number changes only the phone number. |
| `Members.ApplyKeepsActivation` | src/controllers/memberController.js:119-122 | No request moves or re-keys a record or sets `isFirstLogin` again. Only a successful password change alters the flag. |
| `Members.ActivationIsPermanent` | src/controllers/memberController.js:119-122 | Once `isFirstLogin` is false, no sequence of logins, password changes and profile updates makes it true again. |
| `Members.ChangeThenLogin` | src/controllers/memberController.js:119-122 | After a successful change, logging in with the new password succeeds and reports the account as no longer first-login. This assumes a hash the matcher accepts. |
| `Members.FormRequestPassesServerChecks` | src/controllers/memberController.js:99-105 | Every request the dashboard form sends with a filled-in current password passes the server's input checks. The form's length rule is the server's. |
| `Pagination.Skip` | src/controllers/memberController.js:138 | Page 1 skips nothing, and page p starts right after p−1 full pages. |
| `Pagination.TotalPages` | src/controllers/memberController.js:151 | The page count is the fewest pages of `limit` entries that hold all the entries: (n−1)·limit < total ≤ n·limit. It is zero exactly when there are no entries. |
| `Pagination.PageSlice` | src/controllers/memberController.js:140-143 | A page holds at most `limit` entries: the consecutive entries that follow the skipped ones. |
| `Pagination.Paginate` | src/controllers/memberController.js:138-152 | The reply reports the total and the requested page. `totalPages` is exactly the ceiling page count, and the entries are exactly that page's slice. A page past the last is empty, and every page before the last is full. |
| `Pagination.MemberAttendance` | src/controllers/memberController.js:135-153 | Each query parameter takes its own default: limit 30 and page 1. The reply holds the page's slice of the history under those values, with the ceiling page count. With no query, it is page 1 with the first 30 entries. |
| `Pagination.MemberPayments` | src/controllers/memberController.js:160-178 | Each query parameter takes its own default: limit 10 and page 1. The reply holds the page's slice of the history under those values, with the ceiling page count. With no query, it is page 1 with the first 10 entries. |
| `Pagination.FirstPagesArePrefix` | src/controllers/memberController.js:138-143 | The first n pages, concatenated, are the first n·limit entries. |
| `Pagination.AllPagesGiveHistory` | src/controllers/memberController.js:138-151 | Pages 1 to `totalPages`, concatenated in order, are exactly the whole history. Nothing is lost or repeated. |
| `Pagination.EntryOnItsPage` | src/controllers/memberController.js:138-151 | Entry j is on page j/limit+1, and that page exists. |
| `Analytics.BucketsPartition` | src/controllers/analyticsController.js:18-24 | The active, expiring and expired filters are pairwise disjoint, and together they cover every validity instant. |
| `Analytics.ServerBucket` | src/controllers/analyticsController.js:13-24 | A validity counts as active exactly after next week's midnight. It counts as expiring exactly from today's midnight through next week's midnight, and as expired exactly before today's midnight. |
| `Analytics.CountsCover` | src/controllers/analyticsController.js:22-24 | The three bucket counts plus the customers without a validity make up all customers. |
| `Common.CountWhereExt` | src/controllers/analyticsController.js:22-24 | Counting with two filters that agree on every customer gives the same count. |
| `Analytics.DashboardCounts` | src/controllers/analyticsController.js:11-24 | The total is the number of customers. Active counts the customers whose validity is after next week's midnight. Expiring counts those from today's midnight through next week's midnight. Expired counts those before today's midnight. The three buckets add up to the total exactly when every customer has a validity. |
| `Analytics.ServerMatchesClient` | src/controllers/analyticsController.js:13-24 | The server's bucket and the dashboard's badge differ exactly when the validity falls on day today+7 after midnight. In that case the server says active and the dashboard says expiring. |
| `Analytics.MidnightValidityAgrees` | src/controllers/analyticsController.js:18-24 | For a validity stored at midnight, the server's bucket is the dashboard's badge class. |
| `Analytics.PlanPopularity` | src/controllers/analyticsController.js:55-56 | `labels` and `data` have the stats' length, and are index-aligned with the stats' plans and counts. |
| `Analytics.PlanChartRoundTrip` | src/controllers/analyticsController.js:55-56 | Zipping `labels` with `data` gives back the grouped stats. |
| `Analytics.AgeLabels` | src/controllers/analyticsController.js:72-97 | "Under 18" means an age of 0 to 17, "18-25" means 18 to 25, "26-35" means 26 to 35, "36-50" means 36 to 50, and "50+" means 51 to 119. "Other" means a missing age or one outside 0 to 119. |
| `Analytics.AgeDemographics` | src/controllers/analyticsController.js:94-101 | One label and one count per bucket result, in order. Each of the five boundary ids gets its own label and never "Other". |
| `Analytics.Tally` | src/controllers/analyticsController.js:72-83 | Six per-bucket counts that add up to the number of customers. |
| `Analytics.TallyCounts` | src/controllers/analyticsController.js:72-83 | Each bucket's count is exactly the number of customers whose age falls in that bucket. |
| `Analytics.AgeChartCountsEveryone` | src/controllers/analyticsController.js:72-101 | Built from the non-empty buckets, the chart's data add up to the number of customers: no one is lost or counted twice. |
| `Calendar.MonthsBack` | src/controllers/analyticsController.js:141-144 | i months back is the month whose index is i less. Within the year, the year is unchanged. Across January, the year drops by one and the month wraps. |
| `Growth.Window` | src/controllers/analyticsController.js:140-146 | Six months in order, each the month after the previous one, ending at the current month. |
| `Growth.SixMonthsAgo` | src/controllers/analyticsController.js:112-114 | `sixMonthsAgo` is the first day of the controller's first label month. That month is the window's first month exactly when today's day of month exists in it, and otherwise the window's second month. |
| `Growth.WindowChronological` | src/controllers/analyticsController.js:140-146 | The six months are strictly increasing, and so all distinct. |
| `Growth.FindStat` | src/controllers/analyticsController.js:149 | Finds the first stat of the (one-based month, year), or none when no stat has it. |
| `Growth.BusinessGrowth` | src/controllers/analyticsController.js:134-151 | Six labels and six data points, oldest first, the last label being the current month. Each point is the count of its month's first stat, or 0 when there is none. |
| `Growth.GrowthCountsCustomers` | src/controllers/analyticsController.js:116-150 | When the stats are per-month creation counts, each data point is the number of customers created in its month. |
| `Calendar.SetMonth` | src/controllers/analyticsController.js:142 | `setMonth` keeps the day when the target month has it. Otherwise the date overflows into the following month, at an earlier day. |
| `Growth.AsWrittenMonth` | src/controllers/analyticsController.js:141-143 | `setMonth(getMonth() - i)` lands i months back when today's day of month exists in that month, and in the month after it otherwise. |
| `Growth.AsWrittenWindow` | src/controllers/analyticsController.js:140-146 | Each of the controller's label months is the intended window month exactly when today's day of month exists in that month. Otherwise it is the next month of the window, and this never happens for the current month. |
| `Growth.AsWrittenMonthInWindow` | src/controllers/analyticsController.js:141-143 | Label k as written is window month k exactly when today's day of month exists in it, and otherwise window month k+1. |
| `Growth.AsWrittenBusinessGrowth` | src/controllers/analyticsController.js:134-151 | Each of the controller's labels and data points equals the intended chart's label and point for the same month when today's day exists in that month. Otherwise it repeats the intended chart's next label and point. |
| `Growth.AsWrittenAgreesEarlyInMonth` | src/controllers/analyticsController.js:141-143 | On days 1 to 28, the controller's months are exactly the intended window, and its chart is the intended chart for any stats. |
| `Growth.AsWrittenRepeatsMonths` | src/controllers/analyticsController.js:141-143 | On 31 October 2026 the controller's months are May, Jul, Jul, Aug, Oct, Oct. |
| `Growth.WindowOnOctober2026` | src/controllers/analyticsController.js:140-146 | In October 2026 the intended window is May, Jun, Jul, Aug, Sep, Oct 2026. |

## Findings

| source | as written | input that shows it | evidently intended | confidence | as-written member | corrected member |
|---|---|---|---|---|---|---|
| src/controllers/analyticsController.js:141-143 | Each label month is found with `d.setMonth(d.getMonth() - i)` on today's date. This keeps the day of the month, and a day the target month lacks overflows into the next month. | Today 31 October 2026 gives May, Jul, Jul, Aug, Oct, Oct 2026. June and September are missing, and their customers are never shown. | Six consecutive months ending at the current month (May to October 2026). | high; not executed | `Growth.AsWrittenRepeatsMonths` | `Growth.Window` |

## Left out

- Database access (`findOne`, `findById`, `countDocuments`, `aggregate` with `$match`/`$group`/`$bucket`/`$sort`) is not modelled as an engine. Collections are in-memory sequences: lookups take the first match, counts are `CountWhere`, and the grouped stats are inputs.
- The order of the plan-popularity stats (`$sort` by count) and of the growth stats is not modelled. The charts keep whatever order the stats arrive in.
- Password hashing, `comparePassword` and JWT issuance are parameters or keys. Token validity and expiry are not modelled.
- `Members.ChangePassword`: for an account without a stored password, the comparison is not visible in these files. It is modelled as a non-match (401).
- `Members.UpdateMemberProfile`: the response is modelled without the password. This is inferred from `select('+password')`, which login and password change need in order to read it.
- JavaScript `Date` details are not modelled: the millisecond clock (an explicit `now` parameter), time zones and DST (every day is 86 400 000 ms), and the difference between UTC `$month`/`$year` and local `getMonth`.
- `Pagination.Paginate`: query values arrive as strings and are coerced. The model takes natural numbers with limit > 0 and page ≥ 1. A limit of 0 (no limit, with an infinite or NaN page count) and negative skips are not modelled.
- `Growth.GrowthCountsCustomers`: `sixMonthsAgo` keeps the current time of day through `setMonth` and `setDate(1)`. The `$gte` match therefore drops customers created on the first day of the window's first month before that clock time, and that month's point under-counts. The model has no time of day on `createdAt`, so the lemma assumes stats that count each whole month.
- `Growth.LabelOf`: a label is kept as its month name and year, not as the joined string `${monthNames[monthIndex]} ${year}`.
- `MembershipStatus.CalculateMembershipStatus`: the validity is a number. A profile without a validity is not modelled. `new Date(undefined)` is an invalid date, which makes the day difference NaN and shows "Active" with NaN days, while `null` gives the 1970 epoch and shows "Expired".
- String lengths are counted in Unicode scalar values, not UTF-16 code units. A request field that is not a string (where `.length` is undefined) is not modelled.
- The icon and label tables are modelled as exact key lookups. Inherited object properties such as a type named `constructor` are not modelled.
- Rendering is not modelled: the DOM, innerHTML templating (including its unescaped interpolation), alerts, confirms, redirects, the side menu, logout, and showing the first-login modal. Banner entries are structured values rather than HTML.
- `getMemberProfile` is a lookup with a 404 and no other logic. `subscribePushNotification` only acknowledges and stores nothing. Today's attendance count is a plain document count.
- Middleware wiring, the global error handler, routes, email transport and the announcement controller are not part of this model.

=== FILE: analytics.dfy ===
/**
 The analytics controller's arithmetic over the customer collection: the
 active/expiring/expired counts of the dashboard, the plan-popularity chart
 and the age-demographics chart. Database queries become functions over an
 in-memory sequence of customers.
 */
module Analytics {
  import opened Common
  import opened Calendar
  import opened Members
  import MS = MembershipStatus

  // ---------------------------------------------------------------------------
  // Dashboard counts

  /** `nextWeek`: seven days after today's midnight. */
  function NextWeek(today: int): int
  {
    today + 7 * MsPerDay
  }

  /** `validity > nextWeek`. */
  predicate ActiveValidity(v: int, today: int) { v > NextWeek(today) }

  /** `today <= validity <= nextWeek`. */
  predicate ExpiringValidity(v: int, today: int) { today <= v <= NextWeek(today) }

  /** `validity < today`. */
  predicate ExpiredValidity(v: int, today: int) { v < today }

  /** The three count filters split every validity instant into exactly one bucket. */
  lemma BucketsPartition(v: int, today: int)
    ensures ActiveValidity(v, today) || ExpiringValidity(v, today) || ExpiredValidity(v, today)
    ensures !(ActiveValidity(v, today) && ExpiringValidity(v, today))
    ensures !(ActiveValidity(v, today) && ExpiredValidity(v, today))
    ensures !(ExpiringValidity(v, today) && ExpiredValidity(v, today))
  {
  }

  /** The bucket a validity instant is counted in, named like the dashboard's kinds. */
  function ServerBucket(v: int, today: int): (k: MS.Kind)
    ensures k == MS.Active <==> ActiveValidity(v, today)
    ensures k == MS.Expiring <==> ExpiringValidity(v, today)
    ensures k == MS.Expired <==> ExpiredValidity(v, today)
  {
    if ActiveValidity(v, today) then MS.Active
    else if ExpiredValidity(v, today) then MS.Expired
    else MS.Expiring
  }

  predicate HasKind(c: Customer, today: int, k: MS.Kind)
  {
    c.validity.Some? && ServerBucket(c.validity.value, today) == k
  }

  predicate NoValidity(c: Customer) { c.validity.None? }

  /** The customer counts of the dashboard response. */
  datatype CustomerCounts = CustomerCounts(total: nat, active: nat, expiring: nat, expired: nat)

  /** Every customer is either without validity or in exactly one bucket. */
  lemma {:induction false} CountsCover(customers: seq<Customer>, today: int)
    ensures CountWhere(customers, c => HasKind(c, today, MS.Active))
          + CountWhere(customers, c => HasKind(c, today, MS.Expiring))
          + CountWhere(customers, c => HasKind(c, today, MS.Expired))
          + CountWhere(customers, NoValidity)
          == |customers|
  {
    if |customers| > 0 {
      CountsCover(customers[..|customers| - 1], today);
    }
  }

  /**
   The customer part of `getDashboardStats` at instant `now`: the total and
   the three bucket counts. Customers without a validity date are in the
   total but in no bucket, so the buckets add up to the total exactly when
   every customer has one.
   */
  function DashboardCounts(customers: seq<Customer>, now: int): (r: CustomerCounts)
    ensures r.total == |customers|
    ensures r.active + r.expiring + r.expired + CountWhere(customers, NoValidity) == r.total
    ensures (forall i :: 0 <= i < |customers| ==> customers[i].validity.Some?) <==>
              r.active + r.expiring + r.expired == r.total
    ensures r.active == CountWhere(customers, (c: Customer) =>
              c.validity.Some? && c.validity.value > NextWeek(Midnight(now)))
    ensures r.expiring == CountWhere(customers, (c: Customer) =>
              c.validity.Some? && Midnight(now) <= c.validity.value <= NextWeek(Midnight(now)))
    ensures r.expired == CountWhere(customers, (c: Customer) =>
              c.validity.Some? && c.validity.value < Midnight(now))
  {
    var today := Midnight(now);
    CountsCover(customers, today);
    CountWhereExt(customers, c => HasKind(c, today, MS.Active),
                  (c: Customer) => c.validity.Some? && c.validity.value > NextWeek(today));
    CountWhereExt(customers, c => HasKind(c, today, MS.Expiring),
                  (c: Customer) => c.validity.Some? && today <= c.validity.value <= NextWeek(today));
    CountWhereExt(customers, c => HasKind(c, today, MS.Expired),
                  (c: Customer) => c.validity.Some? && c.validity.value < today);
    CustomerCounts(
      |customers|,
      CountWhere(customers, c => HasKind(c, today, MS.Active)),
      CountWhere(customers, c => HasKind(c, today, MS.Expiring)),
      CountWhere(customers, c => HasKind(c, today, MS.Expired)))
  }

  /**
   Server and dashboard disagree only about a validity on the seventh day
   ahead that is later than that day's midnight: the server counts it as
   active, the dashboard shows it as expiring soon. In particular they agree
   on every validity stored at midnight.
   */
  lemma ServerMatchesClient(v: int, now: int)
    ensures var server := ServerBucket(v, Midnight(now));
            var client := MS.KindOf(MS.CalculateMembershipStatus(v, now));
            server != client <==> DayOf(v) == DayOf(now) + 7 && v % MsPerDay != 0
    ensures var server := ServerBucket(v, Midnight(now));
            var client := MS.KindOf(MS.CalculateMembershipStatus(v, now));
            server != client ==> server == MS.Active && client == MS.Expiring
  {
    var d := DayOf(now);
    var m := Midnight(v);
    assert m == DayOf(v) * MsPerDay && m <= v < m + MsPerDay;
    MS.ScaleByDay(DayOf(v), d);
    MS.ScaleByDay(d, DayOf(v));
    MS.ScaleByDay(DayOf(v), d + 7);
    MS.ScaleByDay(d + 7, DayOf(v));
    MS.ScaleByDay(d + 8, DayOf(v) + 1);
    MS.ScaleByDay(DayOf(v) + 1, d + 8);
  }

  /** For a validity at midnight the server's bucket is the dashboard's badge class. */
  lemma MidnightValidityAgrees(v: int, now: int)
    requires v % MsPerDay == 0
    ensures ServerBucket(v, Midnight(now)).CssClass() == MS.CalculateMembershipStatus(v, now).cssClass
  {
    ServerMatchesClient(v, now);
  }

  // ---------------------------------------------------------------------------
  // Plan popularity

  /** One `$group` result: a plan and the number of customers on it. */
  datatype PlanStat = PlanStat(plan: string, count: nat)

  /** A chart payload: labels and data points, index-aligned. */
  datatype Chart = Chart(labels: seq<string>, data: seq<nat>)

  /** `getPlanPopularity`'s `labels` and `data`, projected from the grouped stats. */
  function PlanPopularity(stats: seq<PlanStat>): (r: Chart)
    ensures |r.labels| == |stats| && |r.data| == |stats|
    ensures forall i :: 0 <= i < |stats| ==> r.labels[i] == stats[i].plan && r.data[i] == stats[i].count
  {
    Chart(seq(|stats|, i requires 0 <= i < |stats| => stats[i].plan),
          seq(|stats|, i requires 0 <= i < |stats| => stats[i].count))
  }

  /** Re-pairs a chart's labels and data points. */
  function ZipPlans(labels: seq<string>, data: seq<nat>): seq<PlanStat>
    requires |labels| == |data|
  {
    seq(|labels|, i requires 0 <= i < |labels| => PlanStat(labels[i], data[i]))
  }

  /** The two arrays together lose nothing of the grouped stats. */
  lemma PlanChartRoundTrip(stats: seq<PlanStat>)
    ensures var r := PlanPopularity(stats);
            ZipPlans(r.labels, r.data) == stats
  {
  }

  // ---------------------------------------------------------------------------
  // Age demographics

  /** `boundaries: [0, 18, 26, 36, 51, 120]` of the `$bucket` stage. */
  const Boundaries: seq<int> := [0, 18, 26, 36, 51, 120]

  /** A `$bucket` id: the lower boundary of a bucket, or the `default` bucket. */
  datatype BucketId = Lower(bound: int) | Other

  /** The bucket of an age: `[b_i, b_i+1)` for consecutive boundaries, else the default. */
  function BucketOf(age: Option<int>): BucketId
  {
    if age.None? then Other
    else
      var a := age.value;
      if 0 <= a < 18 then Lower(0)
      else if 18 <= a < 26 then Lower(18)
      else if 26 <= a < 36 then Lower(26)
      else if 36 <= a < 51 then Lower(36)
      else if 51 <= a < 120 then Lower(51)
      else Other
  }

  /** `labelMap[item._id] || 'Other'`. */
  function LabelOf(id: BucketId): string
  {
    match id
    case Lower(b) =>
      if b == 0 then "Under 18"
      else if b == 18 then "18-25"
      else if b == 26 then "26-35"
      else if b == 36 then "36-50"
      else if b == 51 then "50+"
      else "Other"
    case Other => "Other"
  }

  /** The label a customer's age ends up under, stated over the age itself. */
  lemma AgeLabels(age: Option<int>)
    ensures LabelOf(BucketOf(age)) == "Under 18" <==> age.Some? && 0 <= age.value < 18
    ensures LabelOf(BucketOf(age)) == "18-25" <==> age.Some? && 18 <= age.value <= 25
    ensures LabelOf(BucketOf(age)) == "26-35" <==> age.Some? && 26 <= age.value <= 35
    ensures LabelOf(BucketOf(age)) == "36-50" <==> age.Some? && 36 <= age.value <= 50
    ensures LabelOf(BucketOf(age)) == "50+" <==> age.Some? && 51 <= age.value < 120
    ensures LabelOf(BucketOf(age)) == "Other" <==> age.None? || age.value < 0 || age.value >= 120
  {
  }

  /** One `$bucket` result. */
  datatype AgeStat = AgeStat(id: BucketId, count: nat)

  /** `getAgeDemographics`'s `labels` and `data`, one entry per bucket result, in order. */
  function AgeDemographics(stats: seq<AgeStat>): (r: Chart)
    ensures |r.labels| == |stats| && |r.data| == |stats|
    ensures forall i :: 0 <= i < |stats| ==> r.labels[i] == LabelOf(stats[i].id) && r.data[i] == stats[i].count
    ensures forall i :: 0 <= i < |stats| && stats[i].id.Lower? && stats[i].id.bound in Boundaries[..5] ==>
              r.labels[i] != "Other"
  {
    Chart(seq(|stats|, i requires 0 <= i < |stats| => LabelOf(stats[i].id)),
          seq(|stats|, i requires 0 <= i < |stats| => stats[i].count))
  }

  /** The ids of the buckets in boundary order, the default last. */
  const BucketIds: seq<BucketId> := [Lower(0), Lower(18), Lower(26), Lower(36), Lower(51), Other]

  /** The position of a customer's bucket in `BucketIds`. */
  function BucketIndex(age: Option<int>): (k: nat)
    ensures k < 6 && BucketIds[k] == BucketOf(age)
  {
    match BucketOf(age)
    case Lower(b) =>
      if b == 0 then 0 else if b == 18 then 1 else if b == 26 then 2 else if b == 36 then 3 else 4
    case Other => 5
  }

  /** Per-bucket counts of a customer sequence, indexed like `BucketIds`. */
  function Tally(customers: seq<Customer>): (t: seq<nat>)
    ensures |t| == 6
    ensures Sum(t) == |customers|
  {
    if |customers| == 0 then
      SumOfZeros([0, 0, 0, 0, 0, 0]);
      [0, 0, 0, 0, 0, 0]
    else
      var before := Tally(customers[..|customers| - 1]);
      var k := BucketIndex(customers[|customers| - 1].age);
      SumIncrement(before, k);
      before[k := before[k] + 1]
  }

  lemma {:induction false} SumOfZeros(s: seq<nat>)
    requires forall i :: 0 <= i < |s| ==> s[i] == 0
    ensures Sum(s) == 0
    decreases |s|
  {
    if |s| > 0 {
      SumOfZeros(s[1..]);
    }
  }

  /** Raising one entry by one raises the sum by one. */
  lemma {:induction false} SumIncrement(s: seq<nat>, k: nat)
    requires k < |s|
    ensures Sum(s[k := s[k] + 1]) == Sum(s) + 1
    decreases |s|
  {
    var t := s[k := s[k] + 1];
    if k > 0 {
      assert t[1..] == s[1..][k - 1 := s[k] + 1];
      SumIncrement(s[1..], k - 1);
    } else {
      assert t[1..] == s[1..];
    }
  }

  /** Each tally entry counts the customers whose age falls in that bucket. */
  lemma {:induction false} TallyCounts(customers: seq<Customer>, k: nat)
    requires k < 6
    ensures Tally(customers)[k] == CountWhere(customers, (c: Customer) => BucketIndex(c.age) == k)
  {
    if |customers| > 0 {
      TallyCounts(customers[..|customers| - 1], k);
    }
  }

  /** The non-empty buckets, in boundary order: what the `$bucket` stage outputs. */
  function NonEmptyBuckets(t: seq<nat>, from: nat): (r: seq<AgeStat>)
    requires |t| == 6 && from <= 6
    ensures forall i :: 0 <= i < |r| ==> r[i].count > 0
    decreases 6 - from
  {
    if from == 6 then []
    else if t[from] == 0 then NonEmptyBuckets(t, from + 1)
    else [AgeStat(BucketIds[from], t[from])] + NonEmptyBuckets(t, from + 1)
  }

  /** Sum of the counts of the bucket results. */
  function StatTotal(stats: seq<AgeStat>): nat
  {
    if |stats| == 0 then 0 else stats[0].count + StatTotal(stats[1..])
  }

  lemma {:induction false} NonEmptyBucketsTotal(t: seq<nat>, from: nat)
    requires |t| == 6 && from <= 6
    ensures StatTotal(NonEmptyBuckets(t, from)) == Sum(t[from..])
    decreases 6 - from
  {
    if from < 6 {
      NonEmptyBucketsTotal(t, from + 1);
      assert t[from..][1..] == t[from + 1..];
      var rest := NonEmptyBuckets(t, from + 1);
      if t[from] != 0 {
        assert ([AgeStat(BucketIds[from], t[from])] + rest)[1..] == rest;
      }
    }
  }

  lemma {:induction false} ChartKeepsCounts(stats: seq<AgeStat>)
    ensures Sum(AgeDemographics(stats).data) == StatTotal(stats)
    decreases |stats|
  {
    if |stats| > 0 {
      ChartKeepsCounts(stats[1..]);
      assert AgeDemographics(stats).data[1..] == AgeDemographics(stats[1..]).data;
    }
  }

  /**
   The age chart accounts for every customer exactly once: built from the
   bucket results of a customer sequence, its data points add up to the
   number of customers.
   */
  lemma AgeChartCountsEveryone(customers: seq<Customer>)
    ensures Sum(AgeDemographics(NonEmptyBuckets(Tally(customers), 0)).data) == |customers|
  {
    var t := Tally(customers);
    NonEmptyBucketsTotal(t, 0);
    assert t[0..] == t;
    ChartKeepsCounts(NonEmptyBuckets(t, 0));
  }
}

=== FILE: calendar.dfy ===
/**
 Time as the source's `Date` objects use it, reduced to integers: an instant is a
 count of milliseconds on the local time line, a day is a whole number of days,
 and a calendar month is a (year, month index 0..11) pair as `getMonth` returns it.
 */
module Calendar {

  /** `1000 * 60 * 60 * 24`, the day length the source divides by. */
  const MsPerDay: int := 1000 * 60 * 60 * 24

  /** The local calendar day an instant falls on. */
  function DayOf(t: int): int
  {
    t / MsPerDay
  }

  /** `setHours(0, 0, 0, 0)`: the instant at the start of the day holding `t`. */
  function Midnight(t: int): (m: int)
    ensures m <= t < m + MsPerDay
    ensures m % MsPerDay == 0
    ensures DayOf(m) == DayOf(t)
  {
    DayOf(t) * MsPerDay
  }

  /** A calendar month: `year` and a zero-based month index as `getMonth` gives it. */
  datatype YearMonth = YearMonth(year: int, month: int)
  {
    predicate Valid() { 0 <= month < 12 }

    /** Months elapsed since January of year 0: a total order on months. */
    function Index(): int { year * 12 + month }
  }

  /** The month `n` months after January of year 0. */
  function MonthAt(n: int): (ym: YearMonth)
    ensures ym.Valid()
    ensures ym.Index() == n
  {
    YearMonth(n / 12, n % 12)
  }

  /** A valid month is determined by its index. */
  lemma MonthAtIndex(ym: YearMonth)
    requires ym.Valid()
    ensures MonthAt(ym.Index()) == ym
  {
    var n := ym.Index();
    assert n / 12 == ym.year && n % 12 == ym.month by {
      assert n == ym.year * 12 + ym.month && 0 <= ym.month < 12;
    }
  }

  /**
   The month reached by `setMonth(getMonth() - i)` when the day-of-month exists
   in the target month: `i` months back, the year rolling over when the month
   index wraps below zero.
   */
  function MonthsBack(ym: YearMonth, i: int): (r: YearMonth)
    requires ym.Valid()
    ensures r.Valid()
    ensures r.Index() == ym.Index() - i
    ensures 0 <= i <= ym.month ==> r == YearMonth(ym.year, ym.month - i)
    ensures ym.month < i <= ym.month + 12 ==> r == YearMonth(ym.year - 1, ym.month - i + 12)
  {
    MonthAt(ym.Index() - i)
  }

  /** A calendar date: year, zero-based month, one-based day of month. */
  datatype Date = Date(year: int, month: int, day: int)
  {
    predicate Valid()
    {
      0 <= month < 12 && 1 <= day <= DaysInMonth(YearMonth(year, month))
    }

    function Month(): YearMonth { YearMonth(year, month) }
  }

  /** Gregorian leap-year rule, as `Date` applies it. */
  predicate IsLeapYear(y: int)
  {
    y % 4 == 0 && (y % 100 != 0 || y % 400 == 0)
  }

  function DaysInMonth(ym: YearMonth): (n: int)
    ensures 28 <= n <= 31
  {
    if ym.month == 1 then (if IsLeapYear(ym.year) then 29 else 28)
    else if ym.month == 3 || ym.month == 5 || ym.month == 8 || ym.month == 10 then 30
    else 31
  }

  /**
   `d.setMonth(m)` on a date whose day of month is kept: the target month is
   `m` months from January of `d`'s year (with year rollover), and a day that
   the target month does not have overflows into the following month.
   */
  function SetMonth(d: Date, m: int): (r: Date)
    requires d.Valid()
    ensures r.Valid()
    ensures d.day <= DaysInMonth(MonthAt(d.year * 12 + m)) ==>
              r.Month() == MonthAt(d.year * 12 + m) && r.day == d.day
    ensures d.day > DaysInMonth(MonthAt(d.year * 12 + m)) ==>
              r.Month().Index() == d.year * 12 + m + 1 && r.day < d.day
  {
    var target := MonthAt(d.year * 12 + m);
    var dim := DaysInMonth(target);
    if d.day <= dim then Date(target.year, target.month, d.day)
    else
      var next := MonthAt(target.Index() + 1);
      Date(next.year, next.month, d.day - dim)
  }
}

=== FILE: client_state.dfy ===
/**
 The state rules of the member dashboard page: the light/dark theme, the
 password-change form, and the announcement banner. The page is reduced to
 the values these rules read and write; markup and styling are not modelled.
 */
module ClientState {
  import opened Common

  // ---------------------------------------------------------------------------
  // Theme

  const SunIcon: string := "\U{2600}\U{FE0F}"
  const MoonIcon: string := "\U{1F319}"

  /**
   The theme-related state of the page: whether the body carries `dark-mode`,
   the texts of the header toggle icon and of the menu entry's label and icon
   (None when the element is not on the page), and the `theme` entry of local
   storage (None when nothing is stored).
   */
  datatype Page = Page(
    darkMode: bool,
    toggleIcon: Option<string>,
    menuText: Option<string>,
    menuIcon: Option<string>,
    storedTheme: Option<string>)

  /** Replace the text of an element that is on the page; leave a missing one missing. */
  function SetText(element: Option<string>, text: string): Option<string>
  {
    if element.Some? then Some(text) else None
  }

  /** Every theme element present on the page shows what the body's mode calls for. */
  predicate ShowsMode(p: Page)
  {
    && (p.toggleIcon.Some? ==> p.toggleIcon.value == (if p.darkMode then SunIcon else MoonIcon))
    && (p.menuText.Some? ==> p.menuText.value == (if p.darkMode then "Light Mode" else "Dark Mode"))
    && (p.menuIcon.Some? ==> p.menuIcon.value == (if p.darkMode then SunIcon else MoonIcon))
  }

  /** The name of the mode the body is in, as the toggle reads it back. */
  function ModeName(darkMode: bool): string
  {
    if darkMode then "dark" else "light"
  }

  /**
   `setTheme(theme)` (the later of the two definitions, the one in effect):
   dark mode exactly for "dark", every other value renders light, and the
   value given is stored as is.
   */
  function SetTheme(p: Page, theme: string): (r: Page)
    ensures r.darkMode <==> theme == "dark"
    ensures r.storedTheme == Some(theme)
    ensures ShowsMode(r)
    ensures r.toggleIcon.Some? == p.toggleIcon.Some?
    ensures r.menuText.Some? == p.menuText.Some?
    ensures r.menuIcon.Some? == p.menuIcon.Some?
  {
    var dark := theme == "dark";
    Page(
      dark,
      SetText(p.toggleIcon, if dark then SunIcon else MoonIcon),
      SetText(p.menuText, if dark then "Light Mode" else "Dark Mode"),
      SetText(p.menuIcon, if dark then SunIcon else MoonIcon),
      Some(theme))
  }

  /** `toggleTheme()`: read the mode off the body and apply the other one. */
  function ToggleTheme(p: Page): (r: Page)
    ensures r.darkMode == !p.darkMode
    ensures r.storedTheme == Some(ModeName(r.darkMode))
    ensures ShowsMode(r)
    ensures r.toggleIcon.Some? == p.toggleIcon.Some?
    ensures r.menuText.Some? == p.menuText.Some?
    ensures r.menuIcon.Some? == p.menuIcon.Some?
  {
    SetTheme(p, if p.darkMode then "light" else "dark")
  }

  /** `initTheme()`: apply the stored theme, or "light" when none (or "") is stored. */
  function InitTheme(p: Page): (r: Page)
    ensures r.darkMode <==> p.storedTheme == Some("dark")
    ensures !Truthy(p.storedTheme) ==> r.storedTheme == Some("light")
    ensures Truthy(p.storedTheme) ==> r.storedTheme == p.storedTheme
    ensures ShowsMode(r)
    ensures r.toggleIcon.Some? == p.toggleIcon.Some?
    ensures r.menuText.Some? == p.menuText.Some?
    ensures r.menuIcon.Some? == p.menuIcon.Some?
  {
    SetTheme(p, if Truthy(p.storedTheme) then p.storedTheme.value else "light")
  }

  /**
   The page is in a state the theme code itself produces: elements agree with
   the body and the stored theme names the body's mode.
   */
  predicate Settled(p: Page)
  {
    ShowsMode(p) && p.storedTheme == Some(ModeName(p.darkMode))
  }

  /** Toggling twice returns a settled page to exactly where it was. */
  lemma ToggleTwiceRestores(p: Page)
    requires Settled(p)
    ensures ToggleTheme(ToggleTheme(p)) == p
  {
  }

  /** Whatever the starting state, toggling twice restores the body's mode. */
  lemma ToggleTwiceRestoresMode(p: Page)
    ensures ToggleTheme(ToggleTheme(p)).darkMode == p.darkMode
    ensures Settled(ToggleTheme(ToggleTheme(p)))
  {
  }

  /** The page after a reload: the body starts in light mode, storage survives. */
  function Reload(p: Page): Page
  {
    p.(darkMode := false)
  }

  /**
   What `setTheme` applies is what the next page load applies: initialising a
   reloaded page reproduces the mode and the stored value of a non-empty theme.
   */
  lemma ThemeSurvivesReload(p: Page, theme: string)
    requires theme != ""
    ensures InitTheme(Reload(SetTheme(p, theme))) == SetTheme(p, theme)
  {
  }

  /** Initialising twice is the same as initialising once. */
  lemma InitThemeIdempotent(p: Page)
    ensures InitTheme(InitTheme(p)) == InitTheme(p)
  {
  }

  // ---------------------------------------------------------------------------
  // Password-change form

  const MismatchMessage: string := "Passwords do not match!"
  const TooShortMessage: string := "Password must be at least 4 characters"

  datatype PasswordForm = PasswordForm(currentPwd: string, newPwd: string, confirmPwd: string)

  /**
   What the form handler reads and writes: the error line (None when hidden),
   whether the password modal is open, and the `isFirstLogin` entry of
   session storage.
   */
  datatype FormView = FormView(error: Option<string>, modalOpen: bool, firstLoginFlag: Option<string>)

  /** The reply of the change-password API call, when one is made. */
  datatype ApiReply = ApiOk | ApiFailed(message: string)

  /** The request body the form sends to the server. */
  datatype PasswordRequest = PasswordRequest(currentPassword: string, newPassword: string)

  /** The handler's effect: the new view and the API request it made, if any. */
  datatype FormStep = FormStep(view: FormView, request: Option<PasswordRequest>)

  /**
   `handlePasswordChange()` with the server answering `reply` should the
   handler call it. The confirmation mismatch is reported first, the short
   password second, and only a successful call clears the first-login flag.
   */
  function HandlePasswordChange(form: PasswordForm, view: FormView, reply: ApiReply): (r: FormStep)
    ensures r.request.None? <==> form.newPwd != form.confirmPwd || |form.newPwd| < MinPasswordLength
    ensures form.newPwd != form.confirmPwd ==> r.view.error == Some(MismatchMessage)
    ensures form.newPwd == form.confirmPwd && |form.newPwd| < MinPasswordLength ==>
              r.view.error == Some(TooShortMessage)
    ensures r.request.Some? ==> r.request.value == PasswordRequest(form.currentPwd, form.newPwd)
    ensures r.view.firstLoginFlag == (if r.request.Some? && reply.ApiOk? then None else view.firstLoginFlag)
    ensures r.view.modalOpen == (if r.request.Some? && reply.ApiOk? then false else view.modalOpen)
    ensures r.request.Some? && reply.ApiFailed? ==> r.view.error == Some(reply.message)
    ensures r.request.Some? && reply.ApiOk? ==> r.view.error == None
  {
    var cleared := view.(error := None);
    if form.newPwd != form.confirmPwd then
      FormStep(cleared.(error := Some(MismatchMessage)), None)
    else if |form.newPwd| < MinPasswordLength then
      FormStep(cleared.(error := Some(TooShortMessage)), None)
    else
      var request := Some(PasswordRequest(form.currentPwd, form.newPwd));
      match reply
      case ApiOk => FormStep(cleared.(firstLoginFlag := None, modalOpen := false), request)
      case ApiFailed(message) => FormStep(cleared.(error := Some(message)), request)
  }

  /** The server's reply never matters when the form rejects the input locally. */
  lemma LocalRejectionIgnoresServer(form: PasswordForm, view: FormView, reply1: ApiReply, reply2: ApiReply)
    requires HandlePasswordChange(form, view, reply1).request.None?
    ensures HandlePasswordChange(form, view, reply1) == HandlePasswordChange(form, view, reply2)
  {
  }

  // ---------------------------------------------------------------------------
  // Announcement banner

  const InfoIcon: string := "\U{2139}\U{FE0F}"

  /** An active announcement as the API returns it. */
  datatype Announcement = Announcement(kind: string, title: string, message: string)

  /** One rendered banner entry: CSS class (the type), icon, heading and text. */
  datatype BannerItem = BannerItem(cssClass: string, icon: string, title: string, message: string)

  /** The banner container: whether it is displayed and the entries it holds. */
  datatype Banner = Banner(visible: bool, items: seq<BannerItem>)

  /** The icon table of `loadAnnouncements`, keyed by announcement type. */
  function KnownIcon(kind: string): Option<string>
  {
    if kind == "info" then Some(InfoIcon)
    else if kind == "important" then Some("\U{26A0}\U{FE0F}")
    else if kind == "offer" then Some("\U{1F3F7}\U{FE0F}")
    else if kind == "event" then Some("\U{1F389}")
    else if kind == "maintenance" then Some("\U{1F527}")
    else None
  }

  /** The icon shown for a type: its table entry, or the info icon for any other type. */
  function IconFor(kind: string): (icon: string)
    ensures KnownIcon(kind).Some? ==> icon == KnownIcon(kind).value
    ensures icon == InfoIcon <==> kind !in {"important", "offer", "event", "maintenance"}
  {
    var known := KnownIcon(kind);
    if known.Some? then known.value else InfoIcon
  }

  function RenderAnnouncement(a: Announcement): BannerItem
  {
    BannerItem(a.kind, IconFor(a.kind), a.title, a.message)
  }

  /** Reads the announcement back out of its banner entry. */
  function ParseItem(item: BannerItem): Announcement
  {
    Announcement(item.cssClass, item.title, item.message)
  }

  /** A rendered entry loses nothing of its announcement. */
  lemma RenderRoundTrip(a: Announcement)
    ensures ParseItem(RenderAnnouncement(a)) == a
  {
  }

  /**
   `loadAnnouncements()` given the API's data (None when the request failed or
   returned no list). A non-empty list replaces the entries, one per
   announcement in order, and shows the banner; otherwise the banner is hidden
   and its old entries are left in place.
   */
  function LoadAnnouncements(response: Option<seq<Announcement>>, banner: Banner): (r: Banner)
    ensures r.visible <==> response.Some? && |response.value| > 0
    ensures r.visible ==> |r.items| == |response.value|
    ensures r.visible ==> forall i :: 0 <= i < |r.items| ==> ParseItem(r.items[i]) == response.value[i]
    ensures r.visible ==> forall i :: 0 <= i < |r.items| ==> r.items[i].icon == IconFor(response.value[i].kind)
    ensures !r.visible ==> r.items == banner.items
  {
    if response.Some? && |response.value| > 0 then
      var anns := response.value;
      Banner(true, seq(|anns|, i requires 0 <= i < |anns| => RenderAnnouncement(anns[i])))
    else
      Banner(false, banner.items)
  }
}

=== FILE: common.dfy ===
/**
 Shared vocabulary of the model: optional values, HTTP-style results,
 JavaScript truthiness of optional strings, ceiling division and counting.
 */
module Common {

  /** A value that may be absent (`undefined`/`null` in the source). */
  datatype Option<+T> = None | Some(value: T)

  /** An error as the controllers raise it: an HTTP status code and a message. */
  datatype HttpError = HttpError(code: nat, message: string)

  /** The outcome of a request handler: a value or the error passed to `next`. */
  datatype Result<+T> = Ok(value: T) | Err(error: HttpError)

  /** JavaScript truthiness of an optional string: absent and "" are falsy. */
  predicate Truthy(s: Option<string>)
  {
    s.Some? && s.value != ""
  }

  /** `Math.ceil(a / b)` for a positive divisor, on exact integers. */
  function CeilDiv(a: int, b: int): (r: int)
    requires b > 0
    ensures (r - 1) * b < a <= r * b
  {
    if a % b == 0 then a / b else a / b + 1
  }

  /** Scaling by a non-negative factor preserves order. */
  lemma MulMonotone(a: int, b: int, c: nat)
    requires a <= b
    ensures a * c <= b * c
  {
    assert b * c - a * c == (b - a) * c;
  }

  /** Scaling by a positive factor reflects strict order. */
  lemma MulCancelLess(a: int, b: int, c: nat)
    requires c > 0 && a * c < b * c
    ensures a < b
  {
    if b <= a {
      MulMonotone(b, a, c);
    }
  }

  /** The position of the first element of `s` that satisfies `p`, if any (`Array.find`). */
  function FirstIndex<T>(s: seq<T>, p: T -> bool): (r: Option<nat>)
    ensures r.Some? ==> r.value < |s| && p(s[r.value])
    ensures r.Some? ==> forall j :: 0 <= j < r.value ==> !p(s[j])
    ensures r.None? ==> forall j :: 0 <= j < |s| ==> !p(s[j])
  {
    if |s| == 0 then None
    else if p(s[0]) then Some(0)
    else
      var rest := FirstIndex(s[1..], p);
      if rest.Some? then Some(rest.value + 1) else None
  }

  /** Number of elements of `s` that satisfy `p`. */
  function CountWhere<T>(s: seq<T>, p: T -> bool): (n: nat)
    ensures n <= |s|
    ensures n == 0 <==> forall i :: 0 <= i < |s| ==> !p(s[i])
  {
    if |s| == 0 then 0
    else CountWhere(s[..|s| - 1], p) + (if p(s[|s| - 1]) then 1 else 0)
  }

  /** Counting with two predicates that agree everywhere gives the same number. */
  lemma {:induction false} CountWhereExt<T>(s: seq<T>, p: T -> bool, q: T -> bool)
    requires forall x :: p(x) == q(x)
    ensures CountWhere(s, p) == CountWhere(s, q)
  {
    if |s| > 0 {
      CountWhereExt(s[..|s| - 1], p, q);
    }
  }

  /** Sum of a sequence of counts. */
  function Sum(s: seq<nat>): nat
  {
    if |s| == 0 then 0 else s[0] + Sum(s[1..])
  }

  /** Minimum password length the dashboard form and the server both insist on. */
  const MinPasswordLength: nat := 4
}

=== FILE: growth.dfy ===
/**
 The business-growth chart of the analytics controller: six monthly labels
 ending at the current month and, for each, the number of customers created
 in that month (0 when the grouped stats have no entry for it).

 The controller steps back month by month with `Date.setMonth`, which keeps
 the day of the month; on the 29th to 31st that day can be missing in the
 target month and the date overflows into the next one. `AsWrittenWindow`
 models that behaviour; `Window` is the intended six consecutive months,
 and the chart (`BusinessGrowth`) is built on it.
 */
module Growth {
  import opened Common
  import opened Calendar
  import opened Members

  const MonthNames: seq<string> :=
    ["Jan", "Feb", "Mar", "Apr", "May", "Jun", "Jul", "Aug", "Sep", "Oct", "Nov", "Dec"]

  /** A chart label, `${monthNames[monthIndex]} ${year}`, kept as its two parts. */
  datatype GrowthLabel = GrowthLabel(monthName: string, year: int)

  function LabelOf(ym: YearMonth): GrowthLabel
    requires ym.Valid()
  {
    GrowthLabel(MonthNames[ym.month], ym.year)
  }

  /** One `$group` result: a one-based month, a year and the customers created then. */
  datatype MonthStat = MonthStat(month: int, year: int, count: nat)

  datatype GrowthChart = GrowthChart(labels: seq<GrowthLabel>, data: seq<nat>)

  /** The stat belongs to the calendar month `ym` (`$month` is one-based). */
  predicate StatIn(s: MonthStat, ym: YearMonth)
  {
    s.month == ym.month + 1 && s.year == ym.year
  }

  /** `stats.find(...)`: the first stat of month `ym`. */
  function FindStat(stats: seq<MonthStat>, ym: YearMonth): (r: Option<nat>)
    ensures r.Some? ==> r.value < |stats| && StatIn(stats[r.value], ym)
    ensures r.Some? ==> forall j :: 0 <= j < r.value ==> !StatIn(stats[j], ym)
    ensures r.None? ==> forall j :: 0 <= j < |stats| ==> !StatIn(stats[j], ym)
  {
    FirstIndex(stats, (s: MonthStat) => StatIn(s, ym))
  }

  /** `stat ? stat.count : 0`. */
  function CountFor(stats: seq<MonthStat>, ym: YearMonth): nat
  {
    var found := FindStat(stats, ym);
    if found.Some? then stats[found.value].count else 0
  }

  // ---------------------------------------------------------------------------
  // The intended window

  /** The six months ending at `current`, oldest first (`i = 5` down to `0`). */
  function Window(current: YearMonth): (w: seq<YearMonth>)
    requires current.Valid()
    ensures |w| == 6
    ensures forall k :: 0 <= k < 6 ==> w[k].Valid() && w[k].Index() == current.Index() - 5 + k
    ensures w[5] == current
  {
    MonthAtIndex(current);
    seq(6, k requires 0 <= k < 6 => MonthsBack(current, 5 - k))
  }

  /** The window holds six distinct months in chronological order. */
  lemma WindowChronological(current: YearMonth)
    requires current.Valid()
    ensures forall k1, k2 :: 0 <= k1 < k2 < 6 ==> Window(current)[k1].Index() < Window(current)[k2].Index()
    ensures forall k1, k2 :: 0 <= k1 < k2 < 6 ==> Window(current)[k1] != Window(current)[k2]
  {
  }

  /**
   `getBusinessGrowth` in month `current`: six labels and six data points,
   oldest month first, each point the count of its month's first stat or 0.
   */
  function BusinessGrowth(stats: seq<MonthStat>, current: YearMonth): (r: GrowthChart)
    requires current.Valid()
    ensures |r.labels| == 6 && |r.data| == 6
    ensures r.labels[5] == LabelOf(current)
    ensures forall k :: 0 <= k < 6 ==> r.labels[k] == LabelOf(MonthAt(current.Index() - 5 + k))
    ensures forall k :: 0 <= k < 6 ==>
              var ym := MonthAt(current.Index() - 5 + k);
              && (FindStat(stats, ym).None? ==> r.data[k] == 0)
              && (FindStat(stats, ym).Some? ==> r.data[k] == stats[FindStat(stats, ym).value].count)
  {
    var w := Window(current);
    assert forall k :: 0 <= k < 6 ==> w[k] == MonthAt(current.Index() - 5 + k) by {
      forall k | 0 <= k < 6 ensures w[k] == MonthAt(current.Index() - 5 + k) {
        MonthAtIndex(w[k]);
      }
    }
    GrowthChart(seq(6, k requires 0 <= k < 6 => LabelOf(w[k])),
                seq(6, k requires 0 <= k < 6 => CountFor(stats, w[k])))
  }

  /** The customer was created in month `ym`. */
  predicate CreatedIn(c: Customer, ym: YearMonth)
  {
    c.createdAt.Month() == ym
  }

  /**
   When the stats are the per-month creation counts of `customers` (each stat
   counts its own month, and every month of the window with a creation has a
   stat), each data point is the number of customers created in its month.
   */
  lemma GrowthCountsCustomers(stats: seq<MonthStat>, customers: seq<Customer>, current: YearMonth)
    requires current.Valid()
    requires forall j :: 0 <= j < |stats| ==> 1 <= stats[j].month <= 12
    requires forall j :: 0 <= j < |stats| ==>
               stats[j].count == CountWhere(customers, (c: Customer) => CreatedIn(c, YearMonth(stats[j].year, stats[j].month - 1)))
    requires forall k :: 0 <= k < 6 ==>
               CountWhere(customers, (c: Customer) => CreatedIn(c, Window(current)[k])) > 0 ==>
               FindStat(stats, Window(current)[k]).Some?
    ensures forall k :: 0 <= k < 6 ==>
              BusinessGrowth(stats, current).data[k]
              == CountWhere(customers, (c: Customer) => CreatedIn(c, Window(current)[k]))
  {
    var w := Window(current);
    forall k | 0 <= k < 6
      ensures BusinessGrowth(stats, current).data[k] == CountWhere(customers, (c: Customer) => CreatedIn(c, w[k]))
    {
      MonthAtIndex(w[k]);
      var found := FindStat(stats, w[k]);
      if found.Some? {
        var s := stats[found.value];
        assert YearMonth(s.year, s.month - 1) == w[k];
      }
    }
  }

  // ---------------------------------------------------------------------------
  // The window as written

  /** `d = new Date(); d.setMonth(d.getMonth() - i)`: the month it lands in. */
  function AsWrittenMonth(today: Date, i: int): (ym: YearMonth)
    requires today.Valid()
    ensures ym.Valid()
    ensures today.day <= DaysInMonth(MonthsBack(today.Month(), i)) ==> ym == MonthsBack(today.Month(), i)
    ensures today.day > DaysInMonth(MonthsBack(today.Month(), i)) ==>
              ym == MonthAt(MonthsBack(today.Month(), i).Index() + 1)
  {
    var d := SetMonth(today, today.month - i);
    MonthAtIndex(d.Month());
    d.Month()
  }

  /**
   The months of the labels as the controller computes them: each is the
   intended month when today's day of month exists in it, and otherwise the
   intended month after it.
   */
  function AsWrittenWindow(today: Date): (w: seq<YearMonth>)
    requires today.Valid()
    ensures |w| == 6
    ensures forall k :: 0 <= k < 6 ==>
              (w[k] == Window(today.Month())[k] <==> today.day <= DaysInMonth(Window(today.Month())[k]))
    ensures forall k :: 0 <= k < 6 && today.day > DaysInMonth(Window(today.Month())[k]) ==>
              k < 5 && w[k] == Window(today.Month())[k + 1]
  {
    var w := seq(6, k requires 0 <= k < 6 => AsWrittenMonth(today, 5 - k));
    forall k | 0 <= k < 6
      ensures w[k] == Window(today.Month())[k] <==> today.day <= DaysInMonth(Window(today.Month())[k])
      ensures today.day > DaysInMonth(Window(today.Month())[k]) ==> k < 5 && w[k] == Window(today.Month())[k + 1]
    {
      AsWrittenMonthInWindow(today, k);
    }
    w
  }

  /** Label `k` as written against the intended window's months `k` and `k + 1`. */
  lemma AsWrittenMonthInWindow(today: Date, k: nat)
    requires today.Valid() && k < 6
    ensures var intended := Window(today.Month());
            && (AsWrittenMonth(today, 5 - k) == intended[k] <==> today.day <= DaysInMonth(intended[k]))
            && (today.day > DaysInMonth(intended[k]) ==> k < 5 && AsWrittenMonth(today, 5 - k) == intended[k + 1])
  {
    var intended := Window(today.Month());
    var m := AsWrittenMonth(today, 5 - k);
    assert intended[k] == MonthsBack(today.Month(), 5 - k);
    if today.day > DaysInMonth(intended[k]) {
      assert m.Index() == intended[k].Index() + 1;
      MonthAtIndex(intended[k + 1]);
    }
  }

  /**
   `sixMonthsAgo` after `setMonth(getMonth() - 5)` and `setDate(1)`: the first
   day of the month the first label names. That is the window's first month
   exactly when today's day of month exists in it, and the month after it
   otherwise.
   */
  function SixMonthsAgo(today: Date): (start: Date)
    requires today.Valid()
    ensures start.Valid() && start.day == 1
    ensures start.Month() == AsWrittenWindow(today)[0]
    ensures start.Month() == Window(today.Month())[0] <==> today.day <= DaysInMonth(Window(today.Month())[0])
    ensures start.Month() != Window(today.Month())[0] ==> start.Month() == Window(today.Month())[1]
  {
    SetMonth(today, today.month - 5).(day := 1)
  }

  /**
   The chart as the controller computes it, from the as-written months: each
   point is the intended chart's point for the same month when today's day of
   month exists in it, and otherwise the intended chart's next point.
   */
  function AsWrittenBusinessGrowth(stats: seq<MonthStat>, today: Date): (r: GrowthChart)
    requires today.Valid()
    ensures |r.labels| == 6 && |r.data| == 6
    ensures forall k :: 0 <= k < 6 && today.day <= DaysInMonth(Window(today.Month())[k]) ==>
              && r.labels[k] == BusinessGrowth(stats, today.Month()).labels[k]
              && r.data[k] == BusinessGrowth(stats, today.Month()).data[k]
    ensures forall k :: 0 <= k < 6 && today.day > DaysInMonth(Window(today.Month())[k]) ==>
              && k < 5
              && r.labels[k] == BusinessGrowth(stats, today.Month()).labels[k + 1]
              && r.data[k] == BusinessGrowth(stats, today.Month()).data[k + 1]
  {
    var w := AsWrittenWindow(today);
    GrowthChart(seq(6, k requires 0 <= k < 6 => LabelOf(w[k])),
                seq(6, k requires 0 <= k < 6 => CountFor(stats, w[k])))
  }

  /** On days 1 to 28 every month has the day, and the as-written window is the intended one. */
  lemma AsWrittenAgreesEarlyInMonth(stats: seq<MonthStat>, today: Date)
    requires today.Valid() && today.day <= 28
    ensures AsWrittenWindow(today) == Window(today.Month())
    ensures AsWrittenBusinessGrowth(stats, today) == BusinessGrowth(stats, today.Month())
  {
    var w := Window(today.Month());
    var a := AsWrittenWindow(today);
    forall k | 0 <= k < 6 ensures a[k] == w[k] {
      MonthAtIndex(w[k]);
    }
  }

  /**
   On 31 October 2026 the as-written label months are May, Jul, Jul, Aug,
   Oct, Oct: June 31 and September 31 overflow into July and October, so two
   months repeat and June and September are missing.
   */
  lemma AsWrittenRepeatsMonths()
    ensures var today := Date(2026, 9, 31);
            && today.Valid()
            && AsWrittenWindow(today) == [YearMonth(2026, 4), YearMonth(2026, 6), YearMonth(2026, 6),
                                          YearMonth(2026, 7), YearMonth(2026, 9), YearMonth(2026, 9)]
  {
    assert MonthAt(2026 * 12 + 4) == YearMonth(2026, 4);
    assert MonthAt(2026 * 12 + 5) == YearMonth(2026, 5);
    assert MonthAt(2026 * 12 + 6) == YearMonth(2026, 6);
    assert MonthAt(2026 * 12 + 7) == YearMonth(2026, 7);
    assert MonthAt(2026 * 12 + 8) == YearMonth(2026, 8);
    assert MonthAt(2026 * 12 + 9) == YearMonth(2026, 9);
    assert MonthAt(2026 * 12 + 10) == YearMonth(2026, 10);
  }

  /** On the same day the intended window is May to October 2026, each month once. */
  lemma WindowOnOctober2026()
    ensures Window(YearMonth(2026, 9)) == [YearMonth(2026, 4), YearMonth(2026, 5), YearMonth(2026, 6),
                                           YearMonth(2026, 7), YearMonth(2026, 8), YearMonth(2026, 9)]
  {
    var w := Window(YearMonth(2026, 9));
    forall k | 0 <= k < 6 ensures w[k] == YearMonth(2026, 4 + k) {
      MonthAtIndex(w[k]);
      MonthAtIndex(YearMonth(2026, 4 + k));
    }
  }
}

=== FILE: members.dfy ===
/**
 The member-facing account operations of the member controller: login,
 password change and profile update, as pure transitions over an in-memory
 customer collection. Password verification and hashing are parameters:
 `matches(plain, stored)` and `hash(plain)`; a session token is represented by
 the record key it is issued for.
 */
module Members {
  import opened Common
  import opened Calendar
  import ClientState

  /** A customer document, with the fields the member operations and analytics read. */
  datatype Customer = Customer(
    key: nat,                  // the document `_id`
    memberId: string,
    name: string,
    phone: string,
    email: string,
    photo: string,
    plan: string,
    age: Option<int>,
    validity: Option<int>,     // instant the membership is valid until
    createdAt: Date,
    password: Option<string>,  // stored (hashed) password; None when unset
    isFirstLogin: bool,
    lastLogin: Option<int>)

  /** The customer as it is sent to the client: without the password. */
  function Sanitize(c: Customer): (s: Customer)
    ensures s.password.None?
    ensures s.(password := c.password) == c
  {
    c.(password := None)
  }

  const MissingCredentials := HttpError(400, "Please provide member ID and password")
  const InvalidCredentials := HttpError(401, "Invalid member ID or password")
  const NotActivated := HttpError(401, "Member account not activated. Contact admin.")
  const MemberNotFound := HttpError(404, "Member not found")
  const MissingPasswords := HttpError(400, "Please provide current and new password")
  const PasswordTooShort := HttpError(400, "Password must be at least 4 characters")
  const WrongCurrentPassword := HttpError(401, "Current password is incorrect")

  /** `findOne({ memberId })`: the first customer with that member id. */
  function FindByMemberId(db: seq<Customer>, memberId: string): (r: Option<nat>)
    ensures r.Some? ==> r.value < |db| && db[r.value].memberId == memberId
    ensures r.Some? ==> forall j :: 0 <= j < r.value ==> db[j].memberId != memberId
    ensures r.None? ==> forall j :: 0 <= j < |db| ==> db[j].memberId != memberId
  {
    FirstIndex(db, (c: Customer) => c.memberId == memberId)
  }

  /** `findById(id)`: the first customer with that key. */
  function FindByKey(db: seq<Customer>, key: nat): (r: Option<nat>)
    ensures r.Some? ==> r.value < |db| && db[r.value].key == key
    ensures r.Some? ==> forall j :: 0 <= j < r.value ==> db[j].key != key
    ensures r.None? ==> forall j :: 0 <= j < |db| ==> db[j].key != key
  {
    FirstIndex(db, (c: Customer) => c.key == key)
  }

  /** `comparePassword`: a customer without a stored password matches nothing. */
  predicate PasswordMatches(c: Customer, plain: string, matches: (string, string) -> bool)
  {
    c.password.Some? && matches(plain, c.password.value)
  }

  // ---------------------------------------------------------------------------
  // Login

  /** The login response body: the sanitised customer, the token's subject and the flag. */
  datatype LoginReply = LoginReply(customer: Customer, tokenSubject: nat, isFirstLogin: bool)

  datatype LoginOutcome = LoginOutcome(store: seq<Customer>, reply: LoginReply)

  /**
   `memberLogin` at instant `now`. Missing credentials fail before any lookup;
   an unknown member id and a wrong password fail alike; an account without a
   password fails with its own message; success records the login time and
   changes nothing else.
   */
  function MemberLogin(db: seq<Customer>, memberId: Option<string>, password: Option<string>,
                       now: int, matches: (string, string) -> bool): (r: Result<LoginOutcome>)
    ensures !Truthy(memberId) || !Truthy(password) ==> r == Err(MissingCredentials)
    ensures Truthy(memberId) && Truthy(password) && FindByMemberId(db, memberId.value).None? ==>
              r == Err(InvalidCredentials)
    ensures r.Err? && r.error == NotActivated <==>
              && Truthy(memberId) && Truthy(password)
              && FindByMemberId(db, memberId.value).Some?
              && !Truthy(db[FindByMemberId(db, memberId.value).value].password)
    ensures r.Ok? <==>
              && Truthy(memberId) && Truthy(password)
              && FindByMemberId(db, memberId.value).Some?
              && var c := db[FindByMemberId(db, memberId.value).value];
                 Truthy(c.password) && matches(password.value, c.password.value)
    ensures r.Ok? ==>
              var i := FindByMemberId(db, memberId.value).value;
              && r.value.store == db[i := db[i].(lastLogin := Some(now))]
              && r.value.reply.customer == Sanitize(db[i]).(lastLogin := Some(now))
              && r.value.reply.isFirstLogin == db[i].isFirstLogin
              && r.value.reply.tokenSubject == db[i].key
  {
    if !Truthy(memberId) || !Truthy(password) then Err(MissingCredentials)
    else
      var found := FindByMemberId(db, memberId.value);
      if found.None? then Err(InvalidCredentials)
      else
        var c := db[found.value];
        if !Truthy(c.password) then Err(NotActivated)
        else if !PasswordMatches(c, password.value, matches) then Err(InvalidCredentials)
        else
          var updated := c.(lastLogin := Some(now));
          var reply := LoginReply(Sanitize(updated), updated.key, updated.isFirstLogin);
          Ok(LoginOutcome(db[found.value := updated], reply))
  }

  /**
   No enumeration through the message: an unknown member id and a known one
   with a wrong password produce the very same error.
   */
  lemma UnknownIdLikeWrongPassword(db: seq<Customer>, unknown: string, known: string, password: string,
                                   now: int, matches: (string, string) -> bool)
    requires unknown != "" && known != "" && password != ""
    requires FindByMemberId(db, unknown).None?
    requires FindByMemberId(db, known).Some?
    requires PasswordOn(db, known) && !matches(password, db[FindByMemberId(db, known).value].password.value)
    ensures MemberLogin(db, Some(unknown), Some(password), now, matches)
            == MemberLogin(db, Some(known), Some(password), now, matches)
            == Err(InvalidCredentials)
  {
  }

  /** The customer found under `memberId` has a password set. */
  predicate PasswordOn(db: seq<Customer>, memberId: string)
  {
    var i := FindByMemberId(db, memberId);
    i.Some? && Truthy(db[i.value].password)
  }

  // ---------------------------------------------------------------------------
  // Password change

  datatype PasswordOutcome = PasswordOutcome(store: seq<Customer>, tokenSubject: nat)

  /** The checks `changePassword` makes on the request body before any lookup. */
  function ValidatePasswordInput(currentPassword: Option<string>, newPassword: Option<string>): (r: Option<HttpError>)
    ensures r.None? <==> Truthy(currentPassword) && Truthy(newPassword)
                         && |newPassword.value| >= MinPasswordLength
    ensures !Truthy(currentPassword) || !Truthy(newPassword) ==> r == Some(MissingPasswords)
    ensures Truthy(currentPassword) && Truthy(newPassword) && |newPassword.value| < MinPasswordLength ==>
              r == Some(PasswordTooShort)
  {
    if !Truthy(currentPassword) || !Truthy(newPassword) then Some(MissingPasswords)
    else if |newPassword.value| < MinPasswordLength then Some(PasswordTooShort)
    else None
  }

  /**
   `changePassword` for the authenticated customer `userKey`. Input checks come
   before the lookup, the lookup before verifying the current password; only
   success changes the store, setting the new hashed password and clearing the
   first-login flag.
   */
  function ChangePassword(db: seq<Customer>, userKey: nat, currentPassword: Option<string>,
                          newPassword: Option<string>, matches: (string, string) -> bool,
                          hash: string -> string): (r: Result<PasswordOutcome>)
    ensures ValidatePasswordInput(currentPassword, newPassword).Some? ==>
              r == Err(ValidatePasswordInput(currentPassword, newPassword).value)
    ensures Truthy(currentPassword) && Truthy(newPassword) && |newPassword.value| < MinPasswordLength ==>
              r == Err(PasswordTooShort)
    ensures r == Err(MemberNotFound) <==>
              ValidatePasswordInput(currentPassword, newPassword).None? && FindByKey(db, userKey).None?
    ensures r == Err(WrongCurrentPassword) <==>
              && ValidatePasswordInput(currentPassword, newPassword).None?
              && FindByKey(db, userKey).Some?
              && !PasswordMatches(db[FindByKey(db, userKey).value], currentPassword.value, matches)
    ensures r.Ok? <==>
              && ValidatePasswordInput(currentPassword, newPassword).None?
              && FindByKey(db, userKey).Some?
              && PasswordMatches(db[FindByKey(db, userKey).value], currentPassword.value, matches)
    ensures r.Ok? ==>
              var i := FindByKey(db, userKey).value;
              && r.value.store == db[i := db[i].(password := Some(hash(newPassword.value)), isFirstLogin := false)]
              && r.value.tokenSubject == userKey
  {
    var invalid := ValidatePasswordInput(currentPassword, newPassword);
    if invalid.Some? then Err(invalid.value)
    else
      var found := FindByKey(db, userKey);
      if found.None? then Err(MemberNotFound)
      else
        var c := db[found.value];
        if !PasswordMatches(c, currentPassword.value, matches) then Err(WrongCurrentPassword)
        else
          var updated := c.(password := Some(hash(newPassword.value)), isFirstLogin := false);
          Ok(PasswordOutcome(db[found.value := updated], updated.key))
  }

  // ---------------------------------------------------------------------------
  // Profile update

  /** The body of a profile update: each field may be absent. */
  datatype ProfileInput = ProfileInput(name: Option<string>, phone: Option<string>,
                                       email: Option<string>, photo: Option<string>)

  datatype ProfileOutcome = ProfileOutcome(store: seq<Customer>, customer: Customer)

  /** The value a whitelisted field takes: the input when truthy, else the old value. */
  function Pick(input: Option<string>, previous: string): (v: string)
    ensures Truthy(input) ==> v == input.value
    ensures !Truthy(input) ==> v == previous
    ensures v == "" ==> previous == ""
  {
    if Truthy(input) then input.value else previous
  }

  /** The four whitelisted assignments of `updateMemberProfile`. */
  function ApplyProfile(c: Customer, input: ProfileInput): Customer
  {
    c.(name := Pick(input.name, c.name), phone := Pick(input.phone, c.phone),
       email := Pick(input.email, c.email), photo := Pick(input.photo, c.photo))
  }

  /**
   `updateMemberProfile` for the authenticated customer `userKey`: only name,
   phone, email and photo can change, each only to a truthy input; the
   response carries the customer without the password.
   */
  function UpdateMemberProfile(db: seq<Customer>, userKey: nat, input: ProfileInput): (r: Result<ProfileOutcome>)
    ensures r.Err? <==> FindByKey(db, userKey).None?
    ensures r.Err? ==> r.error == MemberNotFound
    ensures r.Ok? ==>
              var i := FindByKey(db, userKey).value;
              && |r.value.store| == |db|
              && (forall j :: 0 <= j < |db| && j != i ==> r.value.store[j] == db[j])
              && var c := r.value.store[i];
                 && c.(name := db[i].name, phone := db[i].phone, email := db[i].email, photo := db[i].photo) == db[i]
                 && (Truthy(input.name) ==> c.name == input.name.value)
                 && (!Truthy(input.name) ==> c.name == db[i].name)
                 && (Truthy(input.phone) ==> c.phone == input.phone.value)
                 && (!Truthy(input.phone) ==> c.phone == db[i].phone)
                 && (Truthy(input.email) ==> c.email == input.email.value)
                 && (!Truthy(input.email) ==> c.email == db[i].email)
                 && (Truthy(input.photo) ==> c.photo == input.photo.value)
                 && (!Truthy(input.photo) ==> c.photo == db[i].photo)
                 && r.value.customer == Sanitize(c)
  {
    var found := FindByKey(db, userKey);
    if found.None? then Err(MemberNotFound)
    else
      var updated := ApplyProfile(db[found.value], input);
      Ok(ProfileOutcome(db[found.value := updated], Sanitize(updated)))
  }

  /** Sending the same profile update twice leaves the store as sending it once. */
  lemma UpdateProfileIdempotent(db: seq<Customer>, userKey: nat, input: ProfileInput)
    requires UpdateMemberProfile(db, userKey, input).Ok?
    ensures var once := UpdateMemberProfile(db, userKey, input).value.store;
            UpdateMemberProfile(once, userKey, input) == UpdateMemberProfile(db, userKey, input)
  {
    var i := FindByKey(db, userKey).value;
    var once := UpdateMemberProfile(db, userKey, input).value.store;
    assert forall j :: 0 <= j < i ==> once[j] == db[j];
    assert FindByKey(once, userKey) == Some(i);
    assert ApplyProfile(once[i], input) == once[i];
    assert once[i := once[i]] == once;
  }

  /** An update carrying only a phone number changes only the phone number. */
  lemma PhoneOnlyUpdate(db: seq<Customer>, userKey: nat, phone: string)
    requires phone != "" && FindByKey(db, userKey).Some?
    ensures var i := FindByKey(db, userKey).value;
            UpdateMemberProfile(db, userKey, ProfileInput(None, Some(phone), None, None)).value.store
            == db[i := db[i].(phone := phone)]
  {
  }

  // ---------------------------------------------------------------------------
  // Sequences of member operations

  /** One member-facing request against the store. */
  datatype Request =
    | Login(memberId: Option<string>, password: Option<string>, now: int)
    | ChangePass(userKey: nat, currentPassword: Option<string>, newPassword: Option<string>)
    | UpdateProfile(userKey: nat, input: ProfileInput)

  /** The store after one request: the new store on success, the old one on failure. */
  function Apply(db: seq<Customer>, req: Request, matches: (string, string) -> bool,
                 hash: string -> string): seq<Customer>
  {
    match req
    case Login(id, pw, now) =>
      var r := MemberLogin(db, id, pw, now, matches);
      if r.Ok? then r.value.store else db
    case ChangePass(key, cur, replacement) =>
      var r := ChangePassword(db, key, cur, replacement, matches, hash);
      if r.Ok? then r.value.store else db
    case UpdateProfile(key, input) =>
      var r := UpdateMemberProfile(db, key, input);
      if r.Ok? then r.value.store else db
  }

  /** Every request keeps the records in place and never sets the first-login flag. */
  lemma ApplyKeepsActivation(db: seq<Customer>, req: Request, matches: (string, string) -> bool,
                             hash: string -> string)
    ensures var db' := Apply(db, req, matches, hash);
            && |db'| == |db|
            && (forall j :: 0 <= j < |db| ==> db'[j].key == db[j].key && db'[j].memberId == db[j].memberId)
            && (forall j :: 0 <= j < |db| && !db[j].isFirstLogin ==> !db'[j].isFirstLogin)
            && (forall j :: 0 <= j < |db| && db'[j].isFirstLogin != db[j].isFirstLogin ==>
                  req.ChangePass? && ChangePassword(db, req.userKey, req.currentPassword,
                                                    req.newPassword, matches, hash).Ok?)
  {
  }

  /** The store after a sequence of requests, in order. */
  function ApplyAll(db: seq<Customer>, reqs: seq<Request>, matches: (string, string) -> bool,
                    hash: string -> string): seq<Customer>
    decreases |reqs|
  {
    if |reqs| == 0 then db
    else ApplyAll(Apply(db, reqs[0], matches, hash), reqs[1..], matches, hash)
  }

  /**
   The first-login flag is one-way: once a customer's flag is false, no
   sequence of logins, password changes and profile updates sets it again.
   */
  lemma {:induction false} ActivationIsPermanent(db: seq<Customer>, reqs: seq<Request>,
                                                  matches: (string, string) -> bool,
                                                  hash: string -> string, j: nat)
    requires j < |db| && !db[j].isFirstLogin
    ensures var db' := ApplyAll(db, reqs, matches, hash);
            j < |db'| && !db'[j].isFirstLogin && db'[j].key == db[j].key
    decreases |reqs|
  {
    if |reqs| > 0 {
      var next := Apply(db, reqs[0], matches, hash);
      ApplyKeepsActivation(db, reqs[0], matches, hash);
      ActivationIsPermanent(next, reqs[1..], matches, hash, j);
    }
  }

  /**
   After a successful password change the member logs in with the new
   password, and the login reports the account as no longer first-login —
   given a hash that the matcher accepts and that is never empty.
   */
  lemma ChangeThenLogin(db: seq<Customer>, userKey: nat, current: string, newPwd: string, now: int,
                        matches: (string, string) -> bool, hash: string -> string)
    requires forall p :: matches(p, hash(p))
    requires forall p :: hash(p) != ""
    requires ChangePassword(db, userKey, Some(current), Some(newPwd), matches, hash).Ok?
    requires var i := FindByKey(db, userKey).value;
             db[i].memberId != "" && FindByMemberId(db, db[i].memberId) == Some(i)
    ensures var i := FindByKey(db, userKey).value;
            var db' := ChangePassword(db, userKey, Some(current), Some(newPwd), matches, hash).value.store;
            var r := MemberLogin(db', Some(db[i].memberId), Some(newPwd), now, matches);
            r.Ok? && !r.value.reply.isFirstLogin && r.value.reply.tokenSubject == userKey
  {
    var i := FindByKey(db, userKey).value;
    var db' := ChangePassword(db, userKey, Some(current), Some(newPwd), matches, hash).value.store;
    assert forall j :: 0 <= j < |db| ==> db'[j].memberId == db[j].memberId;
    assert FindByMemberId(db', db[i].memberId) == Some(i);
  }

  /**
   Whatever the dashboard's form sends passes the server's input checks as
   long as the current password was filled in: the form's length rule is the
   server's.
   */
  lemma FormRequestPassesServerChecks(form: ClientState.PasswordForm, view: ClientState.FormView,
                                      reply: ClientState.ApiReply)
    requires form.currentPwd != ""
    requires ClientState.HandlePasswordChange(form, view, reply).request.Some?
    ensures var req := ClientState.HandlePasswordChange(form, view, reply).request.value;
            ValidatePasswordInput(Some(req.currentPassword), Some(req.newPassword)).None?
  {
  }
}

=== FILE: membership_status.dfy ===
/**
 The member dashboard's membership-status classifier (`calculateMembershipStatus`):
 from the membership's validity instant and the current instant, the number of
 days remaining and the badge text and CSS class the dashboard shows.
 */
module MembershipStatus {
  import opened Common
  import opened Calendar

  /** Days ahead of today, inclusive, during which a membership is "Expiring Soon". */
  const ExpiringWindow: int := 7

  /** The three membership states, shared by the dashboard and the analytics counts. */
  datatype Kind = Active | Expiring | Expired
  {
    function Text(): string
    {
      match this
      case Active => "Active"
      case Expiring => "Expiring Soon"
      case Expired => "Expired"
    }

    function CssClass(): string
    {
      match this
      case Active => "active"
      case Expiring => "expiring"
      case Expired => "expired"
    }

    /** Position on the way from expired to active. */
    function Rank(): nat
    {
      match this
      case Expired => 0
      case Expiring => 1
      case Active => 2
    }
  }

  /** The object the classifier returns: `{daysRemaining, text, class}`. */
  datatype Status = Status(daysRemaining: int, text: string, cssClass: string)

  /** The status object the dashboard builds for a kind and a day count. */
  function StatusOf(kind: Kind, daysRemaining: int): Status
  {
    Status(daysRemaining, kind.Text(), kind.CssClass())
  }

  /**
   `Math.ceil((validityDate - today) / oneDay)` after both instants are moved
   to midnight: exactly the number of calendar days between the two.
   */
  function DiffDays(validity: int, now: int): (d: int)
    ensures d == DayOf(validity) - DayOf(now)
  {
    var k := DayOf(validity) - DayOf(now);
    var diffTime := Midnight(validity) - Midnight(now);
    assert diffTime == k * MsPerDay;
    var d := CeilDiv(diffTime, MsPerDay);
    CeilOfMultiple(k, d);
    d
  }

  /** Multiplying by the day length preserves and reflects the order. */
  lemma ScaleByDay(a: int, b: int)
    ensures a * MsPerDay < b * MsPerDay <==> a < b
    ensures a * MsPerDay <= b * MsPerDay <==> a <= b
  {
    if a < b {
      assert (b - a) * MsPerDay > 0;
    } else {
      assert (a - b) * MsPerDay >= 0;
    }
  }

  /** The ceiling of `k * MsPerDay / MsPerDay` is `k`. */
  lemma CeilOfMultiple(k: int, d: int)
    requires (d - 1) * MsPerDay < k * MsPerDay <= d * MsPerDay
    ensures d == k
  {
    ScaleByDay(d - 1, k);
    ScaleByDay(k, d);
  }

  /** The classification of a day difference, in the source's precedence order. */
  function Classify(diffDays: int): Kind
  {
    if diffDays < 0 then Expired
    else if diffDays <= ExpiringWindow then Expiring
    else Active
  }

  /** `calculateMembershipStatus(validity)` evaluated at instant `now`. */
  function CalculateMembershipStatus(validity: int, now: int): (s: Status)
    ensures s.daysRemaining >= 0
    ensures s.cssClass == "expired" <==> DayOf(validity) < DayOf(now)
    ensures s.cssClass == "expiring" <==> DayOf(now) <= DayOf(validity) <= DayOf(now) + 7
    ensures s.cssClass == "active" <==> DayOf(validity) > DayOf(now) + 7
    ensures s.cssClass == "expired" ==> s.daysRemaining == 0 && s.text == "Expired"
    ensures s.cssClass == "expiring" ==> s.text == "Expiring Soon"
    ensures s.cssClass == "active" ==> s.text == "Active"
    ensures s.cssClass != "expired" ==> s.daysRemaining == DayOf(validity) - DayOf(now)
  {
    var diffDays := DiffDays(validity, now);
    var kind := Classify(diffDays);
    StatusOf(kind, if diffDays < 0 then 0 else diffDays)
  }

  /** The kind a status object stands for, read back from its CSS class. */
  function KindOf(s: Status): Kind
  {
    if s.cssClass == "expired" then Expired
    else if s.cssClass == "expiring" then Expiring
    else Active
  }

  /**
   Only the two calendar days matter: calls whose validity instants fall on
   the same day and whose clocks read the same day give identical results,
   whatever the time of day.
   */
  lemma SameDaySameStatus(v1: int, v2: int, now1: int, now2: int)
    requires DayOf(v1) == DayOf(v2) && DayOf(now1) == DayOf(now2)
    ensures CalculateMembershipStatus(v1, now1) == CalculateMembershipStatus(v2, now2)
  {
  }

  /** Later instants never fall on earlier days. */
  lemma DayOfMonotone(t1: int, t2: int)
    requires t1 <= t2
    ensures DayOf(t1) <= DayOf(t2)
  {
    assert Midnight(t1) <= t1 <= t2 < Midnight(t2) + MsPerDay;
    ScaleByDay(DayOf(t1), DayOf(t2) + 1);
  }

  /**
   Moving the validity later never moves the status from active towards
   expired, and never decreases the days remaining.
   */
  lemma StatusMonotoneInValidity(v1: int, v2: int, now: int)
    requires v1 <= v2
    ensures KindOf(CalculateMembershipStatus(v1, now)).Rank()
            <= KindOf(CalculateMembershipStatus(v2, now)).Rank()
    ensures CalculateMembershipStatus(v1, now).daysRemaining
            <= CalculateMembershipStatus(v2, now).daysRemaining
  {
    DayOfMonotone(v1, v2);
  }

  /** Shifting an instant by whole days shifts its day by the same amount. */
  lemma DayOfShift(t: int, k: int)
    ensures DayOf(t + k * MsPerDay) == DayOf(t) + k
  {
    assert Midnight(t) <= t < Midnight(t) + MsPerDay;
    var u := t + k * MsPerDay;
    assert (DayOf(t) + k) * MsPerDay <= u < (DayOf(t) + k) * MsPerDay + MsPerDay;
    var q := DayOf(u);
    assert q * MsPerDay <= u < q * MsPerDay + MsPerDay;
    ScaleByDay(q, DayOf(t) + k + 1);
    ScaleByDay(DayOf(t) + k, q + 1);
  }

  /**
   The worked cases: validity on today is "Expiring Soon" with 0 days, eight
   days ahead is "Active" with 8 days, yesterday is "Expired" with 0 days, and
   seven days ahead is still "Expiring Soon".
   */
  lemma BoundaryScenarios(now: int)
    ensures CalculateMembershipStatus(now, now) == Status(0, "Expiring Soon", "expiring")
    ensures CalculateMembershipStatus(now + 7 * MsPerDay, now) == Status(7, "Expiring Soon", "expiring")
    ensures CalculateMembershipStatus(now + 8 * MsPerDay, now) == Status(8, "Active", "active")
    ensures CalculateMembershipStatus(now - MsPerDay, now) == Status(0, "Expired", "expired")
  {
    DayOfShift(now, 7);
    DayOfShift(now, 8);
    DayOfShift(now, -1);
  }
}

=== FILE: pagination.dfy ===
/**
 The paging arithmetic of the member attendance and payment histories:
 `skip = (page - 1) * limit`, `totalPages = ceil(total / limit)`, and the
 slice of the (already sorted) history that a page returns.
 */
module Pagination {
  import opened Common

  const AttendanceDefaultLimit: nat := 30
  const PaymentsDefaultLimit: nat := 10
  const DefaultPage: nat := 1

  /** The query string of a history request; None for a parameter not given. */
  datatype PageQuery = PageQuery(limit: Option<nat>, page: Option<nat>)

  /** The response body: the page's entries, the total and the page counts. */
  datatype PageReply<T> = PageReply(items: seq<T>, total: nat, currentPage: nat, totalPages: nat)

  /** A query whose given parameters are usable: a positive limit and a page from 1. */
  predicate WellFormed(q: PageQuery)
  {
    (q.limit.Some? ==> q.limit.value > 0) && (q.page.Some? ==> q.page.value >= 1)
  }

  /** Entries to pass over before the requested page. */
  function Skip(limit: nat, page: nat): (s: nat)
    requires page >= 1
    ensures page == 1 ==> s == 0
    ensures s + limit == page * limit
  {
    (page - 1) * limit
  }

  /** `Math.ceil(total / limit)`: the fewest pages of `limit` entries that hold `total`. */
  function TotalPages(total: nat, limit: nat): (n: nat)
    requires limit > 0
    ensures total <= n * limit
    ensures total > 0 ==> (n - 1) * limit < total
    ensures total == 0 <==> n == 0
  {
    CeilDiv(total, limit)
  }

  function Min(a: int, b: int): int { if a <= b then a else b }

  /** `.skip(skip).limit(limit)` on the sorted history. */
  function PageSlice<T>(items: seq<T>, limit: nat, page: nat): (r: seq<T>)
    requires page >= 1
    ensures |r| <= limit
    ensures |r| == Min(limit, |items| - Min(Skip(limit, page), |items|))
    ensures forall k :: 0 <= k < |r| ==> r[k] == items[Skip(limit, page) + k]
  {
    var skip := Skip(limit, page);
    items[Min(skip, |items|)..Min(skip + limit, |items|)]
  }

  /** One page of a history together with its counts. */
  function Paginate<T>(items: seq<T>, limit: nat, page: nat): (r: PageReply<T>)
    requires limit > 0 && page >= 1
    ensures r.total == |items| && r.currentPage == page
    ensures r.totalPages == TotalPages(|items|, limit)
    ensures r.items == PageSlice(items, limit, page)
    ensures r.totalPages * limit >= |items|
    ensures page > r.totalPages ==> r.items == []
    ensures page < r.totalPages ==> |r.items| == limit
  {
    var n := TotalPages(|items|, limit);
    if page > n then
      MulMonotone(n, page - 1, limit);
      PageReply(PageSlice(items, limit, page), |items|, page, n)
    else if page < n then
      MulMonotone(page, n - 1, limit);
      PageReply(PageSlice(items, limit, page), |items|, page, n)
    else
      PageReply(PageSlice(items, limit, page), |items|, page, n)
  }

  /** `getMemberAttendance`: defaults of 30 entries, first page. */
  function MemberAttendance<T>(history: seq<T>, q: PageQuery): (r: PageReply<T>)
    requires WellFormed(q)
    ensures q.limit.None? && q.page.None? ==>
              r.currentPage == 1 && r.items == history[..Min(30, |history|)]
    ensures r.total == |history|
    ensures r.currentPage == (if q.page.Some? then q.page.value else 1)
    ensures var limit := if q.limit.Some? then q.limit.value else 30;
            && r.totalPages == TotalPages(|history|, limit)
            && r.items == PageSlice(history, limit, r.currentPage)
  {
    Paginate(history, if q.limit.Some? then q.limit.value else AttendanceDefaultLimit,
             if q.page.Some? then q.page.value else DefaultPage)
  }

  /** `getMemberPayments`: defaults of 10 entries, first page. */
  function MemberPayments<T>(history: seq<T>, q: PageQuery): (r: PageReply<T>)
    requires WellFormed(q)
    ensures q.limit.None? && q.page.None? ==>
              r.currentPage == 1 && r.items == history[..Min(10, |history|)]
    ensures r.total == |history|
    ensures r.currentPage == (if q.page.Some? then q.page.value else 1)
    ensures var limit := if q.limit.Some? then q.limit.value else 10;
            && r.totalPages == TotalPages(|history|, limit)
            && r.items == PageSlice(history, limit, r.currentPage)
  {
    Paginate(history, if q.limit.Some? then q.limit.value else PaymentsDefaultLimit,
             if q.page.Some? then q.page.value else DefaultPage)
  }

  /** The first `n` pages, one after another. */
  function FirstPages<T>(items: seq<T>, limit: nat, n: nat): seq<T>
  {
    if n == 0 then [] else FirstPages(items, limit, n - 1) + PageSlice(items, limit, n)
  }

  /** The first `n` pages are the first `n * limit` entries (or all of them). */
  lemma {:induction false} FirstPagesArePrefix<T>(items: seq<T>, limit: nat, n: nat)
    ensures FirstPages(items, limit, n) == items[..Min(n * limit, |items|)]
  {
    if n > 0 {
      FirstPagesArePrefix(items, limit, n - 1);
      var a := Min((n - 1) * limit, |items|);
      var b := Min(n * limit, |items|);
      assert n * limit == (n - 1) * limit + limit;
      assert PageSlice(items, limit, n) == items[a..b];
      assert items[..a] + items[a..b] == items[..b];
    }
  }

  /**
   Paging loses and repeats nothing: pages 1 to `totalPages`, read in order,
   give back the whole history.
   */
  lemma AllPagesGiveHistory<T>(items: seq<T>, limit: nat)
    requires limit > 0
    ensures FirstPages(items, limit, TotalPages(|items|, limit)) == items
  {
    FirstPagesArePrefix(items, limit, TotalPages(|items|, limit));
  }

  /** Entry `j` of the history is on page `j / limit + 1`, which is a page that exists. */
  lemma EntryOnItsPage<T>(items: seq<T>, limit: nat, j: nat)
    requires limit > 0 && j < |items|
    ensures var p := j / limit + 1;
            p <= TotalPages(|items|, limit)
            && j - Skip(limit, p) < |PageSlice(items, limit, p)|
            && PageSlice(items, limit, p)[j - Skip(limit, p)] == items[j]
  {
    var p := j / limit + 1;
    var n := TotalPages(|items|, limit);
    assert Skip(limit, p) == (j / limit) * limit;
    assert (j / limit) * limit <= j < (j / limit) * limit + limit;
    MulCancelLess(j / limit, n, limit);
  }
}
